=== FILE: README.md ===
# PalmMortgageCalc amortization engine in Dafny

This project models the amortization engine of PalmMortgageCalc, a loan
calculator app. The engine has three operations. `paymentAmount` gives the
level payment of a fixed-rate loan. `interestAmountPaid` gives the interest
charged for one period. `lifeOfLoanAmounts` runs the payoff simulation. It
takes the down payment off once, pays the loan down period by period while
the balance is above the payment, and then closes the loan with a final
period. It returns the total interest and the number of payments. The model
also covers the `Loan` value the engine consumes, with its defaulting
initializer, and the append-only loan list `LoanModelController`.

Money is exact `real` arithmetic. Every amount the source rounds with
`(x * 100).rounded() / 100` goes through `Round2`. This rounds to the nearest
cent, with ties away from zero, which is Swift's default rounding rule.

Modules:

- `Rounding` (rounding.dfy): cent rounding and whole-cent amounts.
- `Loans` (loan.dfy): the `Loan` datatype, `NewLoan`, the optional loan and
  the loan list.
- `Annuity` (annuity.dfy): the level-payment mathematics. It proves that the
  unrounded level payment retires the loan exactly.
- `LoanController` (loan_controller.dfy): the three engine operations. The
  simulation is written as a recursive function over the source's local
  variables.
- `PayoffProperties` (payoff.dfy): the simulation checked against a
  reference trace. The trace applies the loop body `k` times, whatever the
  loop guard says.
- `FinancedInterest` (financed.dfy): the simulation with interest charged
  on the financed balance from the first period.
- `Scenarios` (examples.dfy): worked loans computed exactly.

The simulation loop has no iteration cap in the source. It runs forever
when the payment never brings the balance down. The model does not assume
progress. Instead, `PayoffLoop` returns `Stalled` at the first pass after the
first one that does not lower the balance. Every pass from the second on
works on whole cents, so each pass that lowers the balance lowers it by at
least a cent, and that is the termination measure. `StalledNeverExits`
proves that when the result is `Stalled`, the source's loop never exits.
This holds with a positive number of payments per year.

Three behaviours of the code deserve a note:

- A down payment `D` is not the same as borrowing `principal - D`. The
  simulation starts its interest snapshot from the loan as given
  (LoanController.swift line 57), so the first pass charges interest on the
  full principal, down payment included (line 80).
  `Scenarios.DownPaymentIsNotASmallerLoan` shows a pair of loans with equal
  payments and different results. On an ordinary mortgage with a large down
  payment this makes the loop run forever; see "## Findings".
- There is no zero-rate case: `paymentAmount` divides by `rate / 12`
  (line 25), so the model requires a positive rate for the payment
  (`PaymentDefined`).
- The payment divides the rate by the literal 12 (line 24), while the
  interest for a period divides it by `paymentsPerPeriod` (line 36). For a
  loan paid other than monthly the two disagree, and the loop can run
  forever: `Scenarios.AnnualLoanStalls` shows a 10-year loan paid once a
  year at 12% whose balance rises on every pass. The model keeps both
  divisors as written.

`FinancedInterest` (financed.dfy) holds the simulation with the first
interest snapshot taken at the financed balance. The engine model above
keeps the code's behaviour; the corrected one is defined next to it, with
its properties proved.

## Model

| member | source | states |
|---|---|---|
| Rounding.RoundHalfAway | PalmMortgageCalc/PalmMortgageCalc/LoanController.swift:26 | Swift's `.rounded()`: the result is the integer within half of the input, a tie going away from zero (up for a non-negative input, down for a negative one). |
| Rounding.Round2 | PalmMortgageCalc/PalmMortgageCalc/LoanController.swift:26 | The result is a whole number of cents, within half a cent of the input, and never has the opposite sign to the input (a non-negative input gives a non-negative result, a non-positive input a non-positive one). |
| Rounding.Round2ToCents | PalmMortgageCalc/PalmMortgageCalc/LoanController.swift:26 | Cent rounding picks the nearest cent, and a tie goes away from zero. |
| Rounding.Round2FixesExactlyCents | PalmMortgageCalc/PalmMortgageCalc/LoanController.swift:82 | Rounding leaves an amount unchanged if and only if it is already whole cents. |
| Rounding.Round2Idempotent | PalmMortgageCalc/PalmMortgageCalc/LoanController.swift:92 | Rounding twice is the same as rounding once. |
| Rounding.Round2Monotone | PalmMortgageCalc/PalmMortgageCalc/LoanController.swift:82 | Rounding never reverses the order of two amounts. |
| Rounding.CentsClosed | PalmMortgageCalc/PalmMortgageCalc/LoanController.swift:82 | Sums and differences of whole-cent amounts are whole cents. |
| Loans.NewLoan | PalmMortgageCalc/PalmMortgageCalc/Model/Loan.swift:23-31 | Every supplied field is stored unchanged, with no validation. |
| Loans.NewLoanDefaults | PalmMortgageCalc/PalmMortgageCalc/Model/Loan.swift:23 | When omitted, the down payment is 0, payments per year are 12 and the additional principal is 0. |
| Loans.AddNewLoan | PalmMortgageCalc/PalmMortgageCalc/Model/Loan.swift:37-39 | The new loan is last, the count grows by one, and the stored loans are unchanged and in order. |
| Loans.AddNewLoansInOrder | PalmMortgageCalc/PalmMortgageCalc/Model/Loan.swift:37-39 | Adding a sequence of loans appends exactly that sequence, in order. |
| Annuity.DiscountFactor | PalmMortgageCalc/PalmMortgageCalc/LoanController.swift:24-25 | The discount factor `((1+i)^n - 1) / ((1+i)^n * i)`, with the time factor `(1+i)^n` of line 24 computed by `Annuity.Pow` as a whole-number power, is positive for a positive periodic rate and at least one period. |
| Annuity.LevelPayment | PalmMortgageCalc/PalmMortgageCalc/LoanController.swift:26 | Principal over the discount factor, before rounding: positive for a positive principal. |
| Annuity.ScheduledBalanceClosedForm | PalmMortgageCalc/PalmMortgageCalc/LoanController.swift:24-25 | After `k` periods of compounding and level payments, the balance matches the annuity closed form. |
| Annuity.AnnuityPaymentRetiresLoan | PalmMortgageCalc/PalmMortgageCalc/LoanController.swift:24-26 | Principal over the discount factor is the level payment that brings the balance to exactly zero after `n` periods. |
| LoanController.PaymentAmount | PalmMortgageCalc/PalmMortgageCalc/LoanController.swift:21-28 | The payment is whole cents. |
| LoanController.PaymentAmountIsLevelPayment | PalmMortgageCalc/PalmMortgageCalc/LoanController.swift:23-26 | The payment is within half a cent of the level payment for principal less down payment, at periodic rate `rate / 12` over `paymentsPerPeriod * years` periods. It is not negative when the down payment is less than the principal. |
| LoanController.PaymentIgnoresAdditionalPrincipal | PalmMortgageCalc/PalmMortgageCalc/LoanController.swift:23-26 | Changing the additional principal changes neither the payment nor whether it is defined. |
| LoanController.InterestAmountPaid | PalmMortgageCalc/PalmMortgageCalc/LoanController.swift:32-38 | The interest is whole cents. |
| LoanController.InterestIsPeriodicInterest | PalmMortgageCalc/PalmMortgageCalc/LoanController.swift:34-36 | The interest is within half a cent of the full principal field times `rate / paymentsPerPeriod`. It is not negative for a non-negative principal and rate with a positive number of payments per year. |
| LoanController.DownPaymentLoop | PalmMortgageCalc/PalmMortgageCalc/LoanController.swift:71-74 | A positive down payment is subtracted once and then cleared. A down payment that is not positive is left alone. No other variable changes. |
| LoanController.Start | PalmMortgageCalc/PalmMortgageCalc/LoanController.swift:55-74 | Before the loop, nothing is paid, no payments are counted, and interest is first charged on the loan as given. |
| LoanController.Snapshot | PalmMortgageCalc/PalmMortgageCalc/LoanController.swift:84 | The rebuilt loan has the new balance as principal and the loop's down payment, and every other term of the original loan. |
| LoanController.Pass | PalmMortgageCalc/PalmMortgageCalc/LoanController.swift:79-84 | One pass counts one payment, adds that pass's interest to the total, leaves a whole-cent balance, and snapshots the loan at that balance. |
| LoanController.PassLowersBalanceIff | PalmMortgageCalc/PalmMortgageCalc/LoanController.swift:80-82 | On whole-cent amounts, a pass lowers the balance if and only if payment plus additional principal exceeds the interest. |
| LoanController.FinalPeriod | PalmMortgageCalc/PalmMortgageCalc/LoanController.swift:89-92 | The final period adds one payment, and the total interest is whole cents. |
| LoanController.FinalPeriodResidual | PalmMortgageCalc/PalmMortgageCalc/LoanController.swift:90-92 | A lower residual balance never lowers the total interest, and on whole-cent amounts a strictly lower residual strictly raises it. |
| LoanController.FinalPeriodExact | PalmMortgageCalc/PalmMortgageCalc/LoanController.swift:90-92 | On whole-cent amounts the final rounding changes nothing: the total is the running interest plus the payment less the residual. |
| LoanController.NegativeResidualRaisesTotal | PalmMortgageCalc/PalmMortgageCalc/LoanController.swift:90-92 | On whole-cent amounts a negative residual is counted as extra interest: the total exceeds the running interest plus one payment. |
| LoanController.PayoffLoop | PalmMortgageCalc/PalmMortgageCalc/LoanController.swift:78-92 | A paid-off result counts more payments than were made on entry, with a whole-cent total. A stalled result counts more passes than were made on entry. |
| LoanController.LifeOfLoanAmounts | PalmMortgageCalc/PalmMortgageCalc/LoanController.swift:52-93 | A paid-off loan has at least one payment and a whole-cent total interest. |
| LoanController.OutputsAreStableUnderRounding | PalmMortgageCalc/PalmMortgageCalc/LoanController.swift:21-93 | Rounding the payment, the interest or the total interest to cents again leaves each unchanged. |
| PayoffProperties.Trace | PalmMortgageCalc/PalmMortgageCalc/LoanController.swift:78-85 | After `k` passes the count is `k`, and from the first pass on the balance is whole cents. |
| PayoffProperties.TraceSnapshot | PalmMortgageCalc/PalmMortgageCalc/LoanController.swift:84 | From the first pass on, interest is charged on a snapshot of the original terms at the current balance, with the down payment the first loop left. |
| PayoffProperties.TraceStep | PalmMortgageCalc/PalmMortgageCalc/LoanController.swift:80-82 | From the first pass on, the next balance depends only on the current balance, the rate per payment, the payment and the additional principal. |
| PayoffProperties.DownPaymentAppliedOnce | PalmMortgageCalc/PalmMortgageCalc/LoanController.swift:62-84 | The down payment comes off the rounded principal once and is zero afterwards. The first pass charges interest on the original loan. |
| PayoffProperties.LoopStep | PalmMortgageCalc/PalmMortgageCalc/LoanController.swift:78-85 | Above the payment, a pass after the first that does not lower the balance stalls. Otherwise the loop continues from the next pass. From the second pass on, a continuing pass is a cent or more nearer the payment; the first pass may move the balance away from it. |
| PayoffProperties.PaidFromTrace | PalmMortgageCalc/PalmMortgageCalc/LoanController.swift:78-92 | Started at any pass, a paid-off loop ends at the first later pass whose balance is no more than the payment, and returns that pass's final period. |
| PayoffProperties.PaidExitsAtFirstLowBalance | PalmMortgageCalc/PalmMortgageCalc/LoanController.swift:78-92 | A paid-off result counts the loop passes plus one. The balance after the last pass is no more than the payment, and every earlier balance was above it. The total is the rounded running interest plus payment less residual. |
| PayoffProperties.StallPersists | PalmMortgageCalc/PalmMortgageCalc/LoanController.swift:80-82 | Once a pass after the first does not lower the balance, no later pass lowers it. |
| PayoffProperties.StalledNeverExits | PalmMortgageCalc/PalmMortgageCalc/LoanController.swift:78 | When the simulation stalls, every balance the loop would reach stays above the payment, so the loop never exits. |
| PayoffProperties.PaidIffReachesPayment | PalmMortgageCalc/PalmMortgageCalc/LoanController.swift:78-89 | The loan is paid off if and only if some pass brings the balance to the payment or below. |
| PayoffProperties.ExtraPrincipalLowersTrace | PalmMortgageCalc/PalmMortgageCalc/LoanController.swift:82 | More additional principal never raises any balance along the trace. |
| PayoffProperties.ExtraPrincipalNeverLengthensLoan | PalmMortgageCalc/PalmMortgageCalc/LoanController.swift:82 | If a loan is paid off, the same loan with more additional principal is also paid off, in no more payments. |
| FinancedInterest.FinancedLifeOfLoanAmounts | PalmMortgageCalc/PalmMortgageCalc/LoanController.swift:52-93 | The simulation with interest charged on the financed balance from the first period; a paid-off loan has at least one payment and a whole-cent total interest. |
| FinancedInterest.PayoffLoopIgnoresPrincipal | PalmMortgageCalc/PalmMortgageCalc/LoanController.swift:78-85 | Once the loop state is fixed, the loop's outcome does not depend on the loan's principal or down payment, only on its other terms. |
| FinancedInterest.FinancedDownPaymentIsASmallerLoan | PalmMortgageCalc/PalmMortgageCalc/LoanController.swift:57-74 | With interest on the financed balance, a whole-cent principal and a positive whole-cent down payment `D` give exactly the result of borrowing `principal - D` with nothing down. |
| FinancedInterest.FinancedAgreesWithoutDownPayment | PalmMortgageCalc/PalmMortgageCalc/LoanController.swift:57-74 | For a whole-cent loan with no positive down payment, the corrected simulation gives the engine's result. |
| Scenarios.QuarterLoanPayment | PalmMortgageCalc/PalmMortgageCalc/LoanController.swift:21-28 | A 1000 loan over three months at 12% a year pays 340.02 a month. |
| Scenarios.QuarterLoanPaidInThree | PalmMortgageCalc/PalmMortgageCalc/LoanController.swift:52-93 | That loan is paid off in three payments with 20.06 of interest. |
| Scenarios.SamePaymentWithOrWithoutDownPayment | PalmMortgageCalc/PalmMortgageCalc/LoanController.swift:23 | 1000 with 500 down and 500 with nothing down pay the same 253.76. |
| Scenarios.DownPaymentIsNotASmallerLoan | PalmMortgageCalc/PalmMortgageCalc/LoanController.swift:57-84 | Those two loans give different results, 261.28 in three payments against 7.52 in two, because the first pass charges interest on the full principal. |
| Scenarios.FinancedDownPaymentLoanMatchesSmallerLoan | PalmMortgageCalc/PalmMortgageCalc/LoanController.swift:57-84 | With interest charged on the financed balance, the 1000 loan with 500 down gives the 500 loan's result, 7.52 in two payments. |
| Scenarios.MortgagePayment | PalmMortgageCalc/PalmMortgageCalc/LoanController.swift:21-28 | A 200000 mortgage over 30 years at 12% with 150000 down pays 514.31 a month. |
| Scenarios.MortgagePasses | PalmMortgageCalc/PalmMortgageCalc/LoanController.swift:57-84 | Its first pass charges 2000.00 of interest on the full principal, and the balance rises from 50000 to 51485.69 and then to 51486.24. |
| Scenarios.MortgageStalls | PalmMortgageCalc/PalmMortgageCalc/LoanController.swift:52-93 | The mortgage stalls at the second pass, so the source's loop never ends. |
| Scenarios.FinancedMortgagePasses | PalmMortgageCalc/PalmMortgageCalc/LoanController.swift:78-84 | With interest on the financed 50000, the mortgage's balance falls to 49985.69 and then to 49971.24. |
| Scenarios.AnnualLoanPayment | PalmMortgageCalc/PalmMortgageCalc/LoanController.swift:21-28 | A 10000 loan over 10 years at 12% paid once a year pays 1055.82, the level payment at 1% a period. |
| Scenarios.AnnualLoanPasses | PalmMortgageCalc/PalmMortgageCalc/LoanController.swift:32-38 | A year's interest, charged at the full 12%, exceeds that payment, so the balance rises from 10000 to 10144.18 and then to 10305.66. |
| Scenarios.AnnualLoanStalls | PalmMortgageCalc/PalmMortgageCalc/LoanController.swift:52-93 | The annual loan stalls at the second pass, so the source's loop never ends. |

## Findings

| source | as written | input that shows it | evidently intended | confidence | as-written member | corrected member |
|---|---|---|---|---|---|---|
| PalmMortgageCalc/PalmMortgageCalc/LoanController.swift:57-84 | `newLoanValues` starts as the loan as given, so the first pass charges interest on the full principal although the down payment has already come off the balance. On a loan whose payment only just covers the interest on the financed amount, the balance then rises on every pass and the loop never ends. | principal 200000, 30 years, rate 0.12, down payment 150000, 12 payments a year: payment 514.31; the balance goes 50000, 51485.69, 51486.24 and keeps rising | interest is charged on what is still owed from the first period on, so a down payment `D` acts like borrowing `principal - D` | not executed; derived by proof over exact reals, not IEEE doubles | Scenarios.MortgageStalls | FinancedInterest.FinancedDownPaymentIsASmallerLoan |

## Left out

- IEEE-754 `Double` behaviour (overflow, NaN, infinities, representation error): amounts are exact reals with explicit cent rounding.
- `pow` with a fractional exponent: the number of payments `paymentsPerPeriod * years` must be a whole number of at least one (`PaymentDefined`), because Dafny has no real exponentiation.
- A zero or negative rate in `paymentAmount`: the source divides by `rate / 12` with no special case. With a zero rate its `Double` result is NaN, which exact reals cannot express. A negative rate above -12 gives a finite payment in the source, but the model's proof that the discount factor is positive (`Annuity.PowAboveOne`) needs a periodic rate above zero, and a negative interest rate is not a meaningful input for a loan calculator. So the payment requires a positive rate.
- A zero `paymentsPerPeriod` in `interestAmountPaid`: this divides by zero, so the interest requires a non-zero count.
- The `fatalError` on a nil loan (LoanController.swift lines 22, 33, 53) halts the program. It is modelled as the precondition `loan.Some?` on each engine operation, not as a returned error.
- LoanController.LifeOfLoanAmounts: where the source loops forever, the model returns `Stalled`, because a Dafny function must terminate. `StalledNeverExits` ties this to the source for a positive number of payments per year. With zero or a negative number of payments per year, `Stalled` is not proved to mean a non-terminating source loop.
- LoanController.PaymentAmount: its own contract states only that the result is whole cents. The relation to the level payment is stated by `PaymentAmountIsLevelPayment`.
- LoanController.InterestAmountPaid: its own contract states only that the result is whole cents. The relation to the periodic interest is stated by `InterestIsPeriodicInterest`.
- The commented-out `principalAmountPaid` and the commented-out alternative return (LoanController.swift lines 27 and 43-49): dead code.
- The unused `var loan: Loan?` property of `LoanController` (line 14): UI state that no operation reads.
- `import UIKit` / `Foundation` and the `Codable` / `Equatable` conformances: library plumbing. Datatype equality in Dafny plays the part of `Equatable`.
- `LoanModelController` is a class whose `loans` array `addNewLoan` mutates. The model uses an immutable value and returns the updated list.
- The view controllers that collect input and show results are not part of this model.

=== FILE: annuity.dfy ===
/** The level-payment (annuity) mathematics behind the payment formula.

    A loan of `principal` at periodic rate `i`, repaid in `n` equal payments,
    needs the payment `principal / discountFactor`. Here `discountFactor` is
    `((1 + i)^n - 1) / ((1 + i)^n * i)`. This module defines that payment and
    proves what makes it the right one: a balance that grows by `i` each
    period and drops by the payment each period is exactly zero after `n`
    periods.
 */
module Annuity {

  /** `b` raised to a whole-number power. */
  function Pow(b: real, n: nat): real
    decreases n
  {
    if n == 0 then 1.0 else b * Pow(b, n - 1)
  }

  /** Powers add: `b^(m+n) == b^m * b^n`. */
  lemma {:induction false} PowAdd(b: real, m: nat, n: nat)
    ensures Pow(b, m + n) == Pow(b, m) * Pow(b, n)
    decreases m
  {
    if m > 0 {
      PowAdd(b, m - 1, n);
    }
  }

  /** A base above one raised to a positive power stays above one. */
  lemma {:induction false} PowAboveOne(b: real, n: nat)
    requires 1.0 < b && 1 <= n
    ensures 1.0 < Pow(b, n)
    decreases n
  {
    if n > 1 {
      PowAboveOne(b, n - 1);
      var q := Pow(b, n - 1);
      assert b * q - q == (b - 1.0) * q;
      assert (b - 1.0) * q > 0.0;
    }
  }

  /** The annuity discount factor for `n` periods at periodic rate `i`. */
  function DiscountFactor(i: real, n: nat): (df: real)
    requires 0.0 < i && 1 <= n
    ensures 0.0 < df
  {
    PowAboveOne(1.0 + i, n);
    var timeFactor := Pow(1.0 + i, n);
    (timeFactor - 1.0) / (timeFactor * i)
  }

  /** The exact (unrounded) level payment that repays `principal` in `n`
      periods at periodic rate `i`. */
  function LevelPayment(principal: real, i: real, n: nat): (a: real)
    requires 0.0 < i && 1 <= n
    ensures 0.0 < principal ==> 0.0 < a
  {
    principal / DiscountFactor(i, n)
  }

  /** The balance left after `k` periods, when each period adds interest at
      rate `i` and then takes away `payment`. */
  function ScheduledBalance(principal: real, i: real, payment: real, k: nat): real
    decreases k
  {
    if k == 0 then principal
    else ScheduledBalance(principal, i, payment, k - 1) * (1.0 + i) - payment
  }

  /** One period of the closed-form induction, as plain algebra. */
  lemma ClosedFormStep(i: real, principal: real, payment: real, b: real, t: real, b': real, t': real)
    requires i * b == i * principal * t - payment * (t - 1.0)
    requires b' == b * (1.0 + i) - payment && t' == (1.0 + i) * t
    ensures i * b' == i * principal * t' - payment * (t' - 1.0)
  {
    var ib := i * b;
    calc {
      i * (b * (1.0 + i) - payment);
      ib * (1.0 + i) - i * payment;
      (i * principal * t - payment * (t - 1.0)) * (1.0 + i) - i * payment;
      (i * principal * t) * (1.0 + i) - payment * ((t - 1.0) * (1.0 + i)) - i * payment;
      i * principal * ((1.0 + i) * t) - payment * ((t - 1.0) * (1.0 + i) + i);
      i * principal * ((1.0 + i) * t) - payment * ((1.0 + i) * t - 1.0);
    }
  }

  /** One period of the closed form: if it holds after `k - 1` periods, it
      holds after `k`. */
  lemma ClosedFormAdvances(principal: real, i: real, payment: real, k: nat)
    requires 1 <= k
    requires i * ScheduledBalance(principal, i, payment, k - 1)
          == i * principal * Pow(1.0 + i, k - 1) - payment * (Pow(1.0 + i, k - 1) - 1.0)
    ensures i * ScheduledBalance(principal, i, payment, k)
         == i * principal * Pow(1.0 + i, k) - payment * (Pow(1.0 + i, k) - 1.0)
  {
    ClosedFormStep(i, principal, payment,
                   ScheduledBalance(principal, i, payment, k - 1), Pow(1.0 + i, k - 1),
                   ScheduledBalance(principal, i, payment, k), Pow(1.0 + i, k));
  }

  /** Closed form of the scheduled balance, multiplied through by `i`:
      `i * B_k == i * P * (1+i)^k - payment * ((1+i)^k - 1)`. */
  lemma {:induction false} ScheduledBalanceClosedForm(principal: real, i: real, payment: real, k: nat)
    ensures i * ScheduledBalance(principal, i, payment, k)
         == i * principal * Pow(1.0 + i, k) - payment * (Pow(1.0 + i, k) - 1.0)
    decreases k
  {
    if k == 0 {
      assert Pow(1.0 + i, k) == 1.0;
      assert ScheduledBalance(principal, i, payment, k) == principal;
    } else {
      ScheduledBalanceClosedForm(principal, i, payment, k - 1);
      ClosedFormAdvances(principal, i, payment, k);
    }
  }

  /** The level payment retires the loan: after `n` periods the scheduled
      balance is exactly zero. */
  lemma AnnuityPaymentRetiresLoan(principal: real, i: real, n: nat)
    requires 0.0 < i && 1 <= n
    ensures ScheduledBalance(principal, i, LevelPayment(principal, i, n), n) == 0.0
  {
    var a := LevelPayment(principal, i, n);
    var t := Pow(1.0 + i, n);
    PowAboveOne(1.0 + i, n);
    assert DiscountFactor(i, n) == (t - 1.0) / (t * i);
    ScheduledBalanceClosedForm(principal, i, a, n);
    LevelPaymentTimesGrowth(principal, i, t, a);
    var b := ScheduledBalance(principal, i, a, n);
    assert i * b == 0.0;
  }

  /** With `t = (1+i)^n`, the level payment `a` satisfies `a * (t - 1) == principal * t * i`. */
  lemma LevelPaymentTimesGrowth(principal: real, i: real, t: real, a: real)
    requires 0.0 < i && 1.0 < t
    requires a == principal / ((t - 1.0) / (t * i))
    ensures a * (t - 1.0) == i * principal * t
  {
    var d := (t - 1.0) / (t * i);
    assert d * (t * i) == t - 1.0;
    assert a * d == principal;
    calc {
      a * (t - 1.0);
      a * (d * (t * i));
      (a * d) * (t * i);
      principal * (t * i);
    }
  }
}

=== FILE: examples.dfy ===
/** Worked scenarios of the engine, computed exactly.

    The first is a three-month loan paid off in three payments. The second
    pair shows that a down payment is not the same as borrowing less: the
    first period charges interest on the full principal, down payment
    included. The last two are ordinary loans on which the simulation never
    ends: a mortgage with a large down payment, and a loan paid once a year.
 */
module Scenarios {
  import opened Rounding
  import opened Loans
  import opened Annuity
  import opened LoanController
  import opened FinancedInterest

  /** A 1000 loan over a quarter of a year at 12% a year, paid monthly. */
  function QuarterLoan(): Loan {
    NewLoan("Car", 1000.0, 0.25, 0.12)
  }

  /** Three monthly payments of 340.02 repay the quarter loan. */
  lemma QuarterLoanPayment()
    ensures PaymentDefined(QuarterLoan())
    ensures PaymentAmount(Some(QuarterLoan())) == 340.02
  {
    var l := QuarterLoan();
    assert TermPayments(l) == 3.0;
    assert NumberOfPayments(l) == 3;
    assert Pow(1.0 + 0.01, 3) == 1.030301;
    var exact := LevelPayment(1000.0, 0.01, 3);
    assert exact == 1000.0 * (1.030301 * 0.01) / 0.030301;
    Round2ToCents(exact, 34002);
  }

  /** The first two passes: the balance falls to 669.98 and then to 336.66,
      with 10.00 and then 6.70 of interest. */
  lemma QuarterLoanPasses()
    ensures Start(QuarterLoan()) == SimState(QuarterLoan(), 1000.0, 0.0, 0.0, 0)
    ensures Pass(QuarterLoan(), 340.02, Start(QuarterLoan()))
         == SimState(Snapshot(QuarterLoan(), 669.98, 0.0), 669.98, 0.0, 10.0, 1)
    ensures Pass(QuarterLoan(), 340.02, SimState(Snapshot(QuarterLoan(), 669.98, 0.0), 669.98, 0.0, 10.0, 1))
         == SimState(Snapshot(QuarterLoan(), 336.66, 0.0), 336.66, 0.0, 16.70, 2)
  {
    var l := QuarterLoan();
    Round2ToCents(1000.0, 100000);
    Round2ToCents(PeriodicInterest(1000.0, 0.12 / 12.0), 1000);
    Round2ToCents(669.98, 66998);
    Round2ToCents(PeriodicInterest(669.98, 0.12 / 12.0), 670);
    Round2ToCents(336.66, 33666);
  }

  /** The payment is 340.02, and the loan is paid off in three payments with
      20.06 of interest. */
  lemma QuarterLoanPaidInThree()
    ensures PaymentDefined(QuarterLoan())
    ensures LifeOfLoanAmounts(Some(QuarterLoan())) == Paid(LifeOfLoanResult(20.06, 3))
  {
    var l := QuarterLoan();
    QuarterLoanPayment();
    QuarterLoanPasses();
    var s0 := SimState(l, 1000.0, 0.0, 0.0, 0);
    var s1 := SimState(Snapshot(l, 669.98, 0.0), 669.98, 0.0, 10.0, 1);
    var s2 := SimState(Snapshot(l, 336.66, 0.0), 336.66, 0.0, 16.70, 2);
    Round2ToCents(20.06, 2006);
    assert PayoffLoop(l, 340.02, s2) == Paid(LifeOfLoanResult(20.06, 3));
    assert PayoffLoop(l, 340.02, s1) == PayoffLoop(l, 340.02, s2);
    assert PayoffLoop(l, 340.02, s0) == PayoffLoop(l, 340.02, s1);
  }

  /** A 1000 loan with 500 down, over two months at 12% a year. */
  function DownPaymentLoan(): Loan {
    NewLoan("House", 1000.0, 1.0 / 6.0, 0.12, 500.0)
  }

  /** A 500 loan with nothing down, on the same terms. */
  function SmallerLoan(): Loan {
    NewLoan("House", 500.0, 1.0 / 6.0, 0.12)
  }

  /** Both loans finance 500 over two payments, so both pay 253.76. */
  lemma SamePaymentWithOrWithoutDownPayment()
    ensures PaymentDefined(DownPaymentLoan()) && PaymentDefined(SmallerLoan())
    ensures PaymentAmount(Some(DownPaymentLoan())) == 253.76
    ensures PaymentAmount(Some(SmallerLoan())) == 253.76
  {
    var a, b := DownPaymentLoan(), SmallerLoan();
    assert TermPayments(a) == 2.0 && TermPayments(b) == 2.0;
    assert NumberOfPayments(a) == 2 && NumberOfPayments(b) == 2;
    assert Pow(1.0 + 0.01, 2) == 1.0201;
    var exact := LevelPayment(500.0, 0.01, 2);
    assert exact == 500.0 * (1.0201 * 0.01) / 0.0201;
    Round2ToCents(exact, 25376);
  }

  /** With the down payment, the first period charges 10.00 of interest on
      the full 1000, and the loan takes three payments. */
  lemma DownPaymentLoanPasses()
    ensures Start(DownPaymentLoan()) == SimState(DownPaymentLoan(), 500.0, 0.0, 0.0, 0)
    ensures Pass(DownPaymentLoan(), 253.76, Start(DownPaymentLoan()))
         == SimState(Snapshot(DownPaymentLoan(), 256.24, 0.0), 256.24, 0.0, 10.0, 1)
    ensures Pass(DownPaymentLoan(), 253.76,
                 SimState(Snapshot(DownPaymentLoan(), 256.24, 0.0), 256.24, 0.0, 10.0, 1))
         == SimState(Snapshot(DownPaymentLoan(), 5.04, 0.0), 5.04, 0.0, 12.56, 2)
  {
    Round2ToCents(1000.0, 100000);
    Round2ToCents(PeriodicInterest(1000.0, 0.12 / 12.0), 1000);
    Round2ToCents(256.24, 25624);
    Round2ToCents(PeriodicInterest(256.24, 0.12 / 12.0), 256);
    Round2ToCents(5.04, 504);
  }

  /** Without it, the first period charges 5.00 and the loan takes two. */
  lemma SmallerLoanPasses()
    ensures Start(SmallerLoan()) == SimState(SmallerLoan(), 500.0, 0.0, 0.0, 0)
    ensures Pass(SmallerLoan(), 253.76, Start(SmallerLoan()))
         == SimState(Snapshot(SmallerLoan(), 251.24, 0.0), 251.24, 0.0, 5.0, 1)
  {
    Round2ToCents(500.0, 50000);
    Round2ToCents(PeriodicInterest(500.0, 0.12 / 12.0), 500);
    Round2ToCents(251.24, 25124);
  }

  /** Putting 500 down on a 1000 loan is not the same as borrowing 500: the
      payment is the same, but the totals differ, 261.28 over three payments
      against 7.52 over two. */
  lemma DownPaymentIsNotASmallerLoan()
    ensures PaymentDefined(DownPaymentLoan()) && PaymentDefined(SmallerLoan())
    ensures LifeOfLoanAmounts(Some(DownPaymentLoan())) == Paid(LifeOfLoanResult(261.28, 3))
    ensures LifeOfLoanAmounts(Some(SmallerLoan())) == Paid(LifeOfLoanResult(7.52, 2))
  {
    SamePaymentWithOrWithoutDownPayment();
    var a, b := DownPaymentLoan(), SmallerLoan();
    DownPaymentLoanPasses();
    var a0 := SimState(a, 500.0, 0.0, 0.0, 0);
    var a1 := SimState(Snapshot(a, 256.24, 0.0), 256.24, 0.0, 10.0, 1);
    var a2 := SimState(Snapshot(a, 5.04, 0.0), 5.04, 0.0, 12.56, 2);
    Round2ToCents(261.28, 26128);
    assert PayoffLoop(a, 253.76, a2) == Paid(LifeOfLoanResult(261.28, 3));
    assert PayoffLoop(a, 253.76, a1) == PayoffLoop(a, 253.76, a2);
    assert PayoffLoop(a, 253.76, a0) == PayoffLoop(a, 253.76, a1);
    SmallerLoanPasses();
    var b0 := SimState(b, 500.0, 0.0, 0.0, 0);
    var b1 := SimState(Snapshot(b, 251.24, 0.0), 251.24, 0.0, 5.0, 1);
    Round2ToCents(7.52, 752);
    assert PayoffLoop(b, 253.76, b1) == Paid(LifeOfLoanResult(7.52, 2));
    assert PayoffLoop(b, 253.76, b0) == PayoffLoop(b, 253.76, b1);
  }

  /** With interest charged on the financed balance from the start, the
      down-payment loan gives the smaller loan's result, 7.52 in two
      payments. */
  lemma FinancedDownPaymentLoanMatchesSmallerLoan()
    ensures PaymentDefined(DownPaymentLoan())
    ensures FinancedLifeOfLoanAmounts(Some(DownPaymentLoan())) == Paid(LifeOfLoanResult(7.52, 2))
  {
    SamePaymentWithOrWithoutDownPayment();
    Round2FixesExactlyCents(1000.0);
    Round2FixesExactlyCents(500.0);
    FinancedDownPaymentIsASmallerLoan(DownPaymentLoan());
    assert DownPaymentLoan().(principal := 500.0, downPayment := 0.0) == SmallerLoan();
    Round2FixesExactlyCents(500.0);
    FinancedAgreesWithoutDownPayment(SmallerLoan());
    DownPaymentIsNotASmallerLoan();
  }

  /** A 200000 mortgage over 30 years at 12% a year, paid monthly, with
      150000 down. */
  function Mortgage(): Loan {
    NewLoan("House", 200000.0, 30.0, 0.12, 150000.0)
  }

  /** `1.01^90`, built from smaller powers. */
  lemma GrowthOver90Months()
    ensures Pow(1.01, 90) == 2.448632674648479717979477243753701661936431119158246038905493191201420838751865286262206661246954035484256413919411428526469060831863636449445183439509341495021904960378316520059001
  {
    assert Pow(1.01, 10) == 1.10462212541120451001;
    PowAdd(1.01, 10, 10);
    assert Pow(1.01, 20) == 1.2201900399479668244827490915525641902001;
    PowAdd(1.01, 20, 20);
    assert Pow(1.01, 40) == 1.48886373358822087497126463801738296202951256788286744534662595050969228887804001;
    PowAdd(1.01, 40, 40);
    assert Pow(1.01, 80) == 2.2167152171942567448224904711308691769388269392754592124402179264082733540264124281501572115725043155324422596209387684502731884127852345502543880758400191608001;
    PowAdd(1.01, 80, 10);
    assert Pow(1.01, 90) == 2.448632674648479717979477243753701661936431119158246038905493191201420838751865286262206661246954035484256413919411428526469060831863636449445183439509341495021904960378316520059001;
  }

  /** `1.01^360`, the time factor of a 30-year monthly loan at 12%. */
  lemma GrowthOver360Months()
    ensures Pow(1.01, 360) == 35.949641327684920562698817904003604599090917381505448273452179706891694310163279961898852861301615019587175931864719441801523204862401507813150719577822830836265116906522103038683368337618280569967356528195160978104908568663394287888378284271869800252897163754945166459021260672779723686980597274231614171388935463188782603345881317958965972336110470813796674958970914318174419149319828424860428364342736311930030986433801603835631379694404355925392907442813695248771199986002440291522864268669346248596401149881121468070498025924411976274915790574797490445965154319118325654963327682637636298972550433531459404352789834278814993507855377375248827862863035663522919651047208689008025160463522329291255654463631962966236001
  {
    GrowthOver90Months();
    PowAdd(1.01, 90, 90);
    assert Pow(1.01, 180) == 5.995801975356167528162232425620294937365351312543818604397690374083052114261921568413355545970832939729836358588665895269438653046943002575811819784080566778386612332605566909814236506475352882236960084089506097109360378132604690748986209907325603435120441098669945064494809368102197936516142743896023127879152402650149927278151731714576618439472505996521118001;
    PowAdd(1.01, 180, 180);
    assert Pow(1.01, 360) == 35.949641327684920562698817904003604599090917381505448273452179706891694310163279961898852861301615019587175931864719441801523204862401507813150719577822830836265116906522103038683368337618280569967356528195160978104908568663394287888378284271869800252897163754945166459021260672779723686980597274231614171388935463188782603345881317958965972336110470813796674958970914318174419149319828424860428364342736311930030986433801603835631379694404355925392907442813695248771199986002440291522864268669346248596401149881121468070498025924411976274915790574797490445965154319118325654963327682637636298972550433531459404352789834278814993507855377375248827862863035663522919651047208689008025160463522329291255654463631962966236001;
  }

  /** The mortgage finances 50000 over 360 payments of 514.31. */
  lemma MortgagePayment()
    ensures PaymentDefined(Mortgage())
    ensures PaymentAmount(Some(Mortgage())) == 514.31
  {
    var l := Mortgage();
    assert TermPayments(l) == 360.0;
    assert NumberOfPayments(l) == 360;
    GrowthOver360Months();
    var exact := LevelPayment(50000.0, 0.01, 360);
    Round2ToCents(exact, 51431);
  }

  /** The first period charges 2000.00 of interest on the full 200000, so
      the balance rises from 50000 to 51485.69. The second period's
      interest, 514.86, is more than the payment, and the balance rises
      again, to 51486.24. */
  lemma MortgagePasses()
    ensures Start(Mortgage()) == SimState(Mortgage(), 50000.0, 0.0, 0.0, 0)
    ensures Pass(Mortgage(), 514.31, Start(Mortgage()))
         == SimState(Snapshot(Mortgage(), 51485.69, 0.0), 51485.69, 0.0, 2000.0, 1)
    ensures Pass(Mortgage(), 514.31,
                 SimState(Snapshot(Mortgage(), 51485.69, 0.0), 51485.69, 0.0, 2000.0, 1))
         == SimState(Snapshot(Mortgage(), 51486.24, 0.0), 51486.24, 0.0, 2514.86, 2)
  {
    Round2ToCents(200000.0, 20000000);
    Round2ToCents(PeriodicInterest(200000.0, 0.12 / 12.0), 200000);
    Round2ToCents(51485.69, 5148569);
    Round2ToCents(PeriodicInterest(51485.69, 0.12 / 12.0), 51486);
    Round2ToCents(51486.24, 5148624);
  }

  /** The mortgage stalls at the second pass: the simulation never ends. */
  lemma MortgageStalls()
    ensures PaymentDefined(Mortgage())
    ensures LifeOfLoanAmounts(Some(Mortgage())) == Stalled(2)
  {
    var l := Mortgage();
    MortgagePayment();
    MortgagePasses();
    var s0 := SimState(l, 50000.0, 0.0, 0.0, 0);
    var s1 := SimState(Snapshot(l, 51485.69, 0.0), 51485.69, 0.0, 2000.0, 1);
    assert PayoffLoop(l, 514.31, s1) == Stalled(2);
    assert PayoffLoop(l, 514.31, s0) == PayoffLoop(l, 514.31, s1);
  }

  /** With interest charged on the financed 50000 from the start, the
      mortgage's balance falls on each of the first two passes. */
  lemma FinancedMortgagePasses()
    ensures FinancedStart(Mortgage()) == SimState(Snapshot(Mortgage(), 50000.0, 0.0), 50000.0, 0.0, 0.0, 0)
    ensures Pass(Mortgage(), 514.31, FinancedStart(Mortgage()))
         == SimState(Snapshot(Mortgage(), 49985.69, 0.0), 49985.69, 0.0, 500.0, 1)
    ensures Pass(Mortgage(), 514.31,
                 SimState(Snapshot(Mortgage(), 49985.69, 0.0), 49985.69, 0.0, 500.0, 1))
         == SimState(Snapshot(Mortgage(), 49971.24, 0.0), 49971.24, 0.0, 999.86, 2)
  {
    MortgagePasses();
    Round2ToCents(PeriodicInterest(50000.0, 0.12 / 12.0), 50000);
    Round2ToCents(49985.69, 4998569);
    Round2ToCents(PeriodicInterest(49985.69, 0.12 / 12.0), 49986);
    Round2ToCents(49971.24, 4997124);
  }

  /** A 10000 loan over 10 years at 12% a year with one payment a year. The
      payment divides the rate by 12 and spreads it over 10 periods; the
      interest divides it by 1. */
  function AnnualLoan(): Loan {
    NewLoan("Farm", 10000.0, 10.0, 0.12, 0.0, 1.0)
  }

  /** The annual loan pays 1055.82 a year: the level payment at 1% a
      period over 10 periods. */
  lemma AnnualLoanPayment()
    ensures PaymentDefined(AnnualLoan())
    ensures PaymentAmount(Some(AnnualLoan())) == 1055.82
  {
    var l := AnnualLoan();
    assert TermPayments(l) == 10.0;
    assert NumberOfPayments(l) == 10;
    assert Pow(1.0 + 0.01, 10) == 1.10462212541120451001;
    var exact := LevelPayment(10000.0, 0.01, 10);
    assert exact == 10000.0 * (1.10462212541120451001 * 0.01) / 0.10462212541120451001;
    Round2ToCents(exact, 105582);
  }

  /** A year's interest at 12% is more than the payment, so the balance
      rises from 10000 to 10144.18 and then to 10305.66. */
  lemma AnnualLoanPasses()
    ensures Start(AnnualLoan()) == SimState(AnnualLoan(), 10000.0, 0.0, 0.0, 0)
    ensures Pass(AnnualLoan(), 1055.82, Start(AnnualLoan()))
         == SimState(Snapshot(AnnualLoan(), 10144.18, 0.0), 10144.18, 0.0, 1200.0, 1)
    ensures Pass(AnnualLoan(), 1055.82,
                 SimState(Snapshot(AnnualLoan(), 10144.18, 0.0), 10144.18, 0.0, 1200.0, 1))
         == SimState(Snapshot(AnnualLoan(), 10305.66, 0.0), 10305.66, 0.0, 2417.30, 2)
  {
    Round2ToCents(10000.0, 1000000);
    Round2ToCents(PeriodicInterest(10000.0, 0.12 / 1.0), 120000);
    Round2ToCents(10144.18, 1014418);
    Round2ToCents(PeriodicInterest(10144.18, 0.12 / 1.0), 121730);
    Round2ToCents(10305.66, 1030566);
  }

  /** The annual loan stalls at the second pass: the simulation never
      ends. */
  lemma AnnualLoanStalls()
    ensures PaymentDefined(AnnualLoan())
    ensures LifeOfLoanAmounts(Some(AnnualLoan())) == Stalled(2)
  {
    var l := AnnualLoan();
    AnnualLoanPayment();
    AnnualLoanPasses();
    var s0 := SimState(l, 10000.0, 0.0, 0.0, 0);
    var s1 := SimState(Snapshot(l, 10144.18, 0.0), 10144.18, 0.0, 1200.0, 1);
    assert PayoffLoop(l, 1055.82, s1) == Stalled(2);
    assert PayoffLoop(l, 1055.82, s0) == PayoffLoop(l, 1055.82, s1);
  }
}

=== FILE: financed.dfy ===
/** The payoff simulation with the first interest charge on the financed
    balance.

    The engine's simulation charges its first period's interest on the loan
    exactly as given, down payment included, and only from the second
    period on on the balance it tracks. This module takes the interest
    snapshot at the balance left after the down payment from the start, so
    every period charges interest on what is still owed. With that change a
    down payment is the same as borrowing less, and for a loan with no down
    payment nothing changes.
 */
module FinancedInterest {
  import opened Rounding
  import opened Loans
  import opened LoanController

  /** The state before the payment loop, with interest first charged on the
      balance left after the down payment. The balance, the down payment
      and the counters are those of the engine's start state. */
  function FinancedStart(l: Loan): (s: SimState)
    ensures s.currentPrincipal == Start(l).currentPrincipal
    ensures s.downPayment == Start(l).downPayment
    ensures s.newLoanValues == Snapshot(l, s.currentPrincipal, s.downPayment)
    ensures s.cumulativeInterestPaid == 0.0 && s.totalNumberOfPayments == 0
  {
    var s := Start(l);
    s.(newLoanValues := Snapshot(l, s.currentPrincipal, s.downPayment))
  }

  /** The life-of-loan simulation started from `FinancedStart`. */
  function FinancedLifeOfLoanAmounts(loan: OptionalLoan): (r: Payoff)
    requires loan.Some? && PaymentDefined(loan.value)
    ensures r.Paid? ==> 1 <= r.result.numberPayments && IsCents(r.result.totalInterest)
  {
    var l := loan.value;
    PayoffLoop(l, PaymentAmount(loan), FinancedStart(l))
  }

  /** Two loans with the same terms apart from principal and down payment. */
  predicate SameTerms(l: Loan, l': Loan) {
    && l.kind == l'.kind && l.years == l'.years && l.rate == l'.rate
    && l.paymentsPerPeriod == l'.paymentsPerPeriod
    && l.additionalPrincipal == l'.additionalPrincipal
  }

  /** Once a loop state is fixed, the loop reads nothing of the loan but the
      terms `SameTerms` compares: not its principal, not its down payment. */
  lemma {:induction false} PayoffLoopIgnoresPrincipal(l: Loan, l': Loan, p: real, s: SimState)
    requires SameTerms(l, l')
    requires s.newLoanValues.paymentsPerPeriod == l.paymentsPerPeriod != 0.0
    requires IsCents(p)
    requires 1 <= s.totalNumberOfPayments ==> IsCents(s.currentPrincipal)
    ensures PayoffLoop(l, p, s) == PayoffLoop(l', p, s)
    decreases if s.totalNumberOfPayments == 0 then 1 else 0, CentsAbove(s.currentPrincipal, p)
  {
    if p < s.currentPrincipal {
      var s' := Pass(l, p, s);
      assert Pass(l', p, s) == s';
      if !(1 <= s.totalNumberOfPayments && s.currentPrincipal <= s'.currentPrincipal) {
        if 1 <= s.totalNumberOfPayments {
          CentsAboveDecreases(s.currentPrincipal, s'.currentPrincipal, p);
        }
        PayoffLoopIgnoresPrincipal(l, l', p, s');
      }
    }
  }

  /** With interest charged on the financed balance, putting a positive
      down payment `D` on a loan of `principal` gives exactly the result of
      borrowing `principal - D` with nothing down (amounts in whole cents). */
  lemma FinancedDownPaymentIsASmallerLoan(l: Loan)
    requires PaymentDefined(l)
    requires IsCents(l.principal) && IsCents(l.downPayment) && 0.0 < l.downPayment
    ensures PaymentDefined(l.(principal := l.principal - l.downPayment, downPayment := 0.0))
    ensures FinancedLifeOfLoanAmounts(Some(l))
         == FinancedLifeOfLoanAmounts(Some(l.(principal := l.principal - l.downPayment,
                                              downPayment := 0.0)))
  {
    var l' := l.(principal := l.principal - l.downPayment, downPayment := 0.0);
    assert TermPayments(l') == TermPayments(l);
    CentsClosed(l.principal, l.downPayment);
    Round2FixesExactlyCents(l.principal);
    Round2FixesExactlyCents(l.principal - l.downPayment);
    assert FinancedStart(l') == FinancedStart(l);
    assert PaymentAmount(Some(l')) == PaymentAmount(Some(l));
    PayoffLoopIgnoresPrincipal(l, l', PaymentAmount(Some(l)), FinancedStart(l));
  }

  /** For a loan with no positive down payment and a principal in whole
      cents, the financed start is the engine's start, so both simulations
      agree. */
  lemma FinancedAgreesWithoutDownPayment(l: Loan)
    requires PaymentDefined(l)
    requires IsCents(l.principal) && l.downPayment <= 0.0
    ensures FinancedLifeOfLoanAmounts(Some(l)) == LifeOfLoanAmounts(Some(l))
  {
    Round2FixesExactlyCents(l.principal);
    assert FinancedStart(l) == Start(l);
  }
}

=== FILE: loan.dfy ===
/** The `Loan` value and the ordered registry of loans the app keeps.

    `Loan` holds one loan's terms. It is an immutable value: the payoff
    simulation makes a fresh snapshot instead of changing a loan.
 */
module Loans {
  /** The terms of one loan. `kind` is the user-chosen label (the source calls
      it `type`). `rate` is the nominal annual rate as a fraction, and
      `paymentsPerPeriod` is the number of payments per year. */
  datatype Loan = Loan(
    kind: string,
    principal: real,
    years: real,
    rate: real,
    downPayment: real,
    paymentsPerPeriod: real,
    additionalPrincipal: real)

  /** The loan initializer. When omitted, the down payment defaults to 0,
      payments per year to 12 and the additional principal to 0. Every
      supplied field is stored as given, with no validation. */
  function NewLoan(kind: string, principal: real, years: real, rate: real,
                   downPayment: real := 0.0, paymentsPerPeriod: real := 12.0,
                   additionalPrincipal: real := 0.0): (l: Loan)
    ensures l.kind == kind && l.principal == principal && l.years == years
    ensures l.rate == rate && l.downPayment == downPayment
    ensures l.paymentsPerPeriod == paymentsPerPeriod
    ensures l.additionalPrincipal == additionalPrincipal
  {
    Loan(kind, principal, years, rate, downPayment, paymentsPerPeriod, additionalPrincipal)
  }

  /** A loan built from the four required arguments alone has the defaults
      of a monthly loan with no down payment and no extra principal. */
  lemma NewLoanDefaults(kind: string, principal: real, years: real, rate: real)
    ensures NewLoan(kind, principal, years, rate).downPayment == 0.0
    ensures NewLoan(kind, principal, years, rate).paymentsPerPeriod == 12.0
    ensures NewLoan(kind, principal, years, rate).additionalPrincipal == 0.0
  {
  }

  /** An optional loan, the app's `Loan?`. The engine takes its loan this
      way. */
  datatype OptionalLoan = None | Some(value: Loan)

  /** The app's ordered, append-only list of loans. */
  datatype LoanModelController = LoanModelController(loans: seq<Loan>)

  /** Appends a loan. The new loan is last, the count grows by one, and the
      loans already stored stay unchanged and in order. */
  function AddNewLoan(c: LoanModelController, loan: Loan): (c': LoanModelController)
    ensures |c'.loans| == |c.loans| + 1
    ensures c'.loans[|c.loans|] == loan
    ensures forall i :: 0 <= i < |c.loans| ==> c'.loans[i] == c.loans[i]
  {
    LoanModelController(c.loans + [loan])
  }

  /** Adding loans one after another keeps them in the order they were
      added, after everything stored before. */
  lemma {:induction false} AddNewLoansInOrder(c: LoanModelController, added: seq<Loan>)
    ensures AddAll(c, added).loans == c.loans + added
    decreases |added|
  {
    if added != [] {
      AddNewLoansInOrder(AddNewLoan(c, added[0]), added[1..]);
      assert c.loans + [added[0]] + added[1..] == c.loans + added;
    }
  }

  /** Adds every loan of `added`, front to back. */
  function AddAll(c: LoanModelController, added: seq<Loan>): LoanModelController
    decreases |added|
  {
    if added == [] then c else AddAll(AddNewLoan(c, added[0]), added[1..])
  }
}

=== FILE: loan_controller.dfy ===
/** The amortization engine: the payment amount, the interest for one period,
    and the life-of-loan payoff simulation.

    All three operations take an optional loan. An absent loan halts the
    program, so here it is a precondition (`loan.Some?`), not a returned
    value. Money is exact `real` arithmetic with explicit cent rounding.
 */
module LoanController {
  import opened Rounding
  import opened Loans
  import opened Annuity

  // ---------------------------------------------------------------------------
  // Payment amount
  // ---------------------------------------------------------------------------

  /** When the payment formula is defined. The annual rate must be positive,
      because the formula divides by `rate / 12`. The number of payments
      `paymentsPerPeriod * years` must be a whole number of at least one, so
      that `(1 + i)^n` is a whole-number power and the discount factor is
      not zero. */
  predicate PaymentDefined(l: Loan) {
    && 0.0 < l.rate
    && 1.0 <= TermPayments(l)
    && TermPayments(l).Floor as real == TermPayments(l)
  }

  /** The payment count over the term, `paymentsPerPeriod * years`, the
      exponent of the time factor. */
  function TermPayments(l: Loan): real {
    l.paymentsPerPeriod * l.years
  }

  /** The same count as a natural number, when it is a whole one. */
  function NumberOfPayments(l: Loan): (n: nat)
    requires PaymentDefined(l)
    ensures n as real == l.paymentsPerPeriod * l.years && 1 <= n
  {
    TermPayments(l).Floor
  }

  /** The payment due each period: the level payment that repays the
      principal less the down payment over `NumberOfPayments` periods, at
      periodic rate `rate / 12`, rounded to cents (`PaymentAmountIsLevelPayment`
      states how close it is). The divisor is the literal 12, whatever the
      number of payments per year. The additional principal plays no part. */
  function PaymentAmount(loan: OptionalLoan): (r: real)
    requires loan.Some? && PaymentDefined(loan.value)
    ensures IsCents(r)
  {
    var l := loan.value;
    var principal := l.principal - l.downPayment;
    Round2(LevelPayment(principal, l.rate / 12.0, NumberOfPayments(l)))
  }

  /** The payment is within half a cent of the exact level payment at the
      periodic rate `rate / 12`, and it is not negative when the down payment
      is less than the principal. */
  lemma PaymentAmountIsLevelPayment(l: Loan)
    requires PaymentDefined(l)
    ensures var exact := LevelPayment(l.principal - l.downPayment, l.rate / 12.0,
                                      NumberOfPayments(l));
            exact - 0.005 <= PaymentAmount(Some(l)) <= exact + 0.005
    ensures l.downPayment < l.principal ==> 0.0 <= PaymentAmount(Some(l))
  {
  }

  /** The additional principal plays no part in the payment: changing it
      leaves the payment, and whether it is defined, as they were. */
  lemma PaymentIgnoresAdditionalPrincipal(l: Loan, extra: real)
    ensures PaymentDefined(l.(additionalPrincipal := extra)) == PaymentDefined(l)
    ensures PaymentDefined(l) ==>
              PaymentAmount(Some(l.(additionalPrincipal := extra))) == PaymentAmount(Some(l))
  {
    var l' := l.(additionalPrincipal := extra);
    assert TermPayments(l') == TermPayments(l);
  }

  // ---------------------------------------------------------------------------
  // Interest for one period
  // ---------------------------------------------------------------------------

  /** Interest on `balance` at `periodicRate` for one period, before
      rounding. */
  function PeriodicInterest(balance: real, periodicRate: real): real {
    balance * periodicRate
  }

  /** Interest grows with the balance when the rate is not negative. */
  lemma PeriodicInterestMonotone(b1: real, b2: real, periodicRate: real)
    requires b1 <= b2 && 0.0 <= periodicRate
    ensures PeriodicInterest(b1, periodicRate) <= PeriodicInterest(b2, periodicRate)
  {
    assert PeriodicInterest(b2, periodicRate) - PeriodicInterest(b1, periodicRate)
        == (b2 - b1) * periodicRate;
  }

  /** The interest charged for one period: the full `principal` field (the
      down payment is not taken off) times `rate / paymentsPerPeriod`, rounded
      to cents (`InterestIsPeriodicInterest` states how close it is). */
  function InterestAmountPaid(loan: OptionalLoan): (r: real)
    requires loan.Some? && loan.value.paymentsPerPeriod != 0.0
    ensures IsCents(r)
  {
    var l := loan.value;
    var principal := l.principal;
    Round2(PeriodicInterest(principal, l.rate / l.paymentsPerPeriod))
  }

  /** The interest is within half a cent of the principal times the rate per
      payment. It is never negative for a non-negative principal and rate with
      a positive number of payments per year. */
  lemma InterestIsPeriodicInterest(l: Loan)
    requires l.paymentsPerPeriod != 0.0
    ensures var exact := PeriodicInterest(l.principal, l.rate / l.paymentsPerPeriod);
            exact - 0.005 <= InterestAmountPaid(Some(l)) <= exact + 0.005
    ensures (0.0 <= l.principal && 0.0 <= l.rate && 0.0 < l.paymentsPerPeriod) ==>
              0.0 <= InterestAmountPaid(Some(l))
  {
    if 0.0 <= l.principal && 0.0 <= l.rate && 0.0 < l.paymentsPerPeriod {
      assert 0.0 <= l.rate / l.paymentsPerPeriod;
      assert 0.0 <= PeriodicInterest(l.principal, l.rate / l.paymentsPerPeriod);
    }
  }

  // ---------------------------------------------------------------------------
  // Life-of-loan simulation
  // ---------------------------------------------------------------------------

  /** What the simulation returns: total interest and number of payments. */
  datatype LifeOfLoanResult = LifeOfLoanResult(totalInterest: real, numberPayments: int)

  /** The outcome of the simulation. `Paid` carries the source's result.
      `Stalled` means a pass after the first did not lower the balance. The
      source has no iteration cap; from such a pass on its loop never exits
      (lemma `PayoffProperties.StalledNeverExits`). `passes` counts the
      passes made up to and including the one that did not lower the
      balance. */
  datatype Payoff = Paid(result: LifeOfLoanResult) | Stalled(passes: nat)

  /** The simulation's local variables. `newLoanValues` is the loan whose
      principal is charged interest on the next pass. */
  datatype SimState = SimState(
    newLoanValues: Loan,
    currentPrincipal: real,
    downPayment: real,
    cumulativeInterestPaid: real,
    totalNumberOfPayments: nat)

  /** The down-payment loop, `while downPayment > 0`. Its body subtracts the
      down payment from the balance and sets it to zero, so it runs at most
      once. A down payment that is not positive is neither applied nor
      cleared. */
  function DownPaymentLoop(s: SimState): (r: SimState)
    ensures r.downPayment <= 0.0
    ensures 0.0 < s.downPayment ==>
              r.currentPrincipal == s.currentPrincipal - s.downPayment && r.downPayment == 0.0
    ensures s.downPayment <= 0.0 ==> r == s
    ensures r.newLoanValues == s.newLoanValues
    ensures r.cumulativeInterestPaid == s.cumulativeInterestPaid
    ensures r.totalNumberOfPayments == s.totalNumberOfPayments
    decreases if 0.0 < s.downPayment then 1 else 0
  {
    if 0.0 < s.downPayment then
      DownPaymentLoop(s.(currentPrincipal := s.currentPrincipal - s.downPayment, downPayment := 0.0))
    else s
  }

  /** The state just before the payment loop. Nothing has been paid yet, and
      interest is first charged on the loan exactly as given. */
  function Start(l: Loan): (s: SimState)
    ensures s.newLoanValues == l
    ensures s.cumulativeInterestPaid == 0.0 && s.totalNumberOfPayments == 0
  {
    var s0 := SimState(l, Round2(l.principal), l.downPayment, 0.0, 0);
    DownPaymentLoop(s0)
  }

  /** The snapshot loan the source builds after each pass. It has the new
      balance as its principal and the loop's down payment; every other term
      is the original loan's. */
  function Snapshot(l: Loan, principal: real, downPayment: real): (r: Loan)
    ensures r.principal == principal && r.downPayment == downPayment
    ensures r.kind == l.kind && r.years == l.years && r.rate == l.rate
    ensures r.paymentsPerPeriod == l.paymentsPerPeriod
    ensures r.additionalPrincipal == l.additionalPrincipal
  {
    NewLoan(l.kind, principal, l.years, l.rate, downPayment,
            l.paymentsPerPeriod, l.additionalPrincipal)
  }

  /** One pass of the payment loop. It counts one more payment and adds this
      pass's interest to the running total. It then takes the payment net of
      that interest, plus the additional principal, off the balance, rounds
      to cents, and snapshots the loan at the new balance. */
  function Pass(l: Loan, monthlyPayment: real, s: SimState): (s': SimState)
    requires s.newLoanValues.paymentsPerPeriod != 0.0
    ensures s'.totalNumberOfPayments == s.totalNumberOfPayments + 1
    ensures s'.cumulativeInterestPaid
         == s.cumulativeInterestPaid + InterestAmountPaid(Some(s.newLoanValues))
    ensures s'.newLoanValues == Snapshot(l, s'.currentPrincipal, s.downPayment)
    ensures s'.downPayment == s.downPayment
    ensures IsCents(s'.currentPrincipal)
  {
    var currentInterestPaid := InterestAmountPaid(Some(s.newLoanValues));
    var cumulative := s.cumulativeInterestPaid + currentInterestPaid;
    var principal := Round2(s.currentPrincipal
                            - (monthlyPayment - currentInterestPaid + l.additionalPrincipal));
    SimState(Snapshot(l, principal, s.downPayment), principal, s.downPayment,
             cumulative, s.totalNumberOfPayments + 1)
  }

  /** On whole-cent amounts a pass lowers the balance exactly when the
      payment plus the additional principal exceeds that pass's interest. */
  lemma PassLowersBalanceIff(l: Loan, monthlyPayment: real, s: SimState)
    requires s.newLoanValues.paymentsPerPeriod != 0.0
    requires IsCents(s.currentPrincipal) && IsCents(monthlyPayment) && IsCents(l.additionalPrincipal)
    ensures var interest := InterestAmountPaid(Some(s.newLoanValues));
            Pass(l, monthlyPayment, s).currentPrincipal < s.currentPrincipal
            <==> interest < monthlyPayment + l.additionalPrincipal
  {
    var interest := InterestAmountPaid(Some(s.newLoanValues));
    CentsClosed(monthlyPayment, interest);
    CentsClosed(monthlyPayment - interest, l.additionalPrincipal);
    CentsClosed(s.currentPrincipal, monthlyPayment - interest + l.additionalPrincipal);
    Round2FixesExactlyCents(s.currentPrincipal - (monthlyPayment - interest + l.additionalPrincipal));
  }

  /** How many whole cents `balance` lies above `payment`; zero when it does
      not. This is the termination measure of the payment loop. */
  function CentsAbove(balance: real, payment: real): nat
  {
    if payment < balance then ((balance - payment) * 100.0).Floor + 1 else 0
  }

  /** Between whole-cent amounts, a lower balance is fewer cents above the
      payment. */
  lemma CentsAboveDecreases(b: real, b': real, payment: real)
    requires IsCents(b) && IsCents(b') && IsCents(payment)
    requires b' < b && payment < b
    ensures CentsAbove(b', payment) < CentsAbove(b, payment)
  {
    CentsClosed(b, payment);
    CentsClosed(b', payment);
  }

  /** The amount that ends the simulation. It adds the final payment, and
      folds the payment less the residual balance into the interest total. A
      negative residual therefore raises the total. */
  function FinalPeriod(monthlyPayment: real, s: SimState): (r: LifeOfLoanResult)
    ensures r.numberPayments == s.totalNumberOfPayments + 1
    ensures IsCents(r.totalInterest)
  {
    var totalNumberOfPayments := s.totalNumberOfPayments + 1;
    var cumulative := s.cumulativeInterestPaid + monthlyPayment - s.currentPrincipal;
    LifeOfLoanResult(Round2(cumulative), totalNumberOfPayments)
  }

  /** The smaller the residual balance, the larger the interest total: with
      the running interest and the payment fixed, a lower (or negative)
      residual never lowers the total. On whole-cent amounts, the ones the
      loop produces, a strictly lower residual strictly raises it. */
  lemma FinalPeriodResidual(monthlyPayment: real, s: SimState, s': SimState)
    requires s.cumulativeInterestPaid == s'.cumulativeInterestPaid
    requires s.currentPrincipal <= s'.currentPrincipal
    ensures FinalPeriod(monthlyPayment, s').totalInterest
         <= FinalPeriod(monthlyPayment, s).totalInterest
    ensures IsCents(monthlyPayment) && IsCents(s.cumulativeInterestPaid)
            && IsCents(s.currentPrincipal) && IsCents(s'.currentPrincipal)
            && s.currentPrincipal < s'.currentPrincipal
            ==> FinalPeriod(monthlyPayment, s').totalInterest
                < FinalPeriod(monthlyPayment, s).totalInterest
  {
    Round2Monotone(s'.cumulativeInterestPaid + monthlyPayment - s'.currentPrincipal,
                   s.cumulativeInterestPaid + monthlyPayment - s.currentPrincipal);
    if IsCents(monthlyPayment) && IsCents(s.cumulativeInterestPaid)
       && IsCents(s.currentPrincipal) && IsCents(s'.currentPrincipal) {
      FinalPeriodExact(monthlyPayment, s);
      FinalPeriodExact(monthlyPayment, s');
    }
  }

  /** On whole-cent amounts the final period's rounding changes nothing: the
      total is exactly the running interest plus the payment less the
      residual. */
  lemma FinalPeriodExact(monthlyPayment: real, s: SimState)
    requires IsCents(monthlyPayment) && IsCents(s.cumulativeInterestPaid)
    requires IsCents(s.currentPrincipal)
    ensures FinalPeriod(monthlyPayment, s).totalInterest
         == s.cumulativeInterestPaid + monthlyPayment - s.currentPrincipal
  {
    CentsClosed(s.cumulativeInterestPaid, monthlyPayment);
    CentsClosed(s.cumulativeInterestPaid + monthlyPayment, s.currentPrincipal);
    Round2FixesExactlyCents(s.cumulativeInterestPaid + monthlyPayment - s.currentPrincipal);
  }

  /** A negative residual (an overpaying last regular payment) is folded
      into the total as extra interest: on whole-cent amounts the total
      then exceeds the running interest plus one payment. */
  lemma NegativeResidualRaisesTotal(monthlyPayment: real, s: SimState)
    requires IsCents(monthlyPayment) && IsCents(s.cumulativeInterestPaid)
    requires IsCents(s.currentPrincipal) && s.currentPrincipal < 0.0
    ensures FinalPeriod(monthlyPayment, s).totalInterest
          > s.cumulativeInterestPaid + monthlyPayment
  {
    FinalPeriodExact(monthlyPayment, s);
  }

  /** The payment loop, `while currentPrincipal > monthlyPayment`, followed
      by the final period. After the first pass the balance is a whole number
      of cents, so each pass that lowers it lowers it by at least a cent. */
  function PayoffLoop(l: Loan, monthlyPayment: real, s: SimState): (r: Payoff)
    requires s.newLoanValues.paymentsPerPeriod == l.paymentsPerPeriod != 0.0
    requires IsCents(monthlyPayment)
    requires 1 <= s.totalNumberOfPayments ==> IsCents(s.currentPrincipal)
    ensures r.Paid? ==> s.totalNumberOfPayments < r.result.numberPayments
    ensures r.Paid? ==> IsCents(r.result.totalInterest)
    ensures r.Stalled? ==> s.totalNumberOfPayments < r.passes
    decreases if s.totalNumberOfPayments == 0 then 1 else 0,
              CentsAbove(s.currentPrincipal, monthlyPayment)
  {
    if s.currentPrincipal <= monthlyPayment then
      Paid(FinalPeriod(monthlyPayment, s))
    else
      var s' := Pass(l, monthlyPayment, s);
      if 1 <= s.totalNumberOfPayments && s.currentPrincipal <= s'.currentPrincipal then
        Stalled(s'.totalNumberOfPayments)
      else if s.totalNumberOfPayments == 0 then
        PayoffLoop(l, monthlyPayment, s')
      else
        CentsAboveDecreases(s.currentPrincipal, s'.currentPrincipal, monthlyPayment);
        PayoffLoop(l, monthlyPayment, s')
  }

  /** Total interest and number of payments over the life of the loan. The
      payment is computed once. The down payment comes off the rounded
      principal once. The loop runs while the balance exceeds the payment,
      and one final period closes the loan. */
  function LifeOfLoanAmounts(loan: OptionalLoan): (r: Payoff)
    requires loan.Some? && PaymentDefined(loan.value)
    ensures r.Paid? ==> 1 <= r.result.numberPayments && IsCents(r.result.totalInterest)
  {
    var l := loan.value;
    var monthlyPayment := PaymentAmount(loan);
    PayoffLoop(l, monthlyPayment, Start(l))
  }

  /** Every amount the engine returns is already whole cents, so rounding it
      to cents again leaves it unchanged. */
  lemma OutputsAreStableUnderRounding(l: Loan)
    requires PaymentDefined(l)
    ensures Round2(PaymentAmount(Some(l))) == PaymentAmount(Some(l))
    ensures l.paymentsPerPeriod != 0.0 ==>
              Round2(InterestAmountPaid(Some(l))) == InterestAmountPaid(Some(l))
    ensures LifeOfLoanAmounts(Some(l)).Paid? ==>
              Round2(LifeOfLoanAmounts(Some(l)).result.totalInterest)
              == LifeOfLoanAmounts(Some(l)).result.totalInterest
  {
    Round2FixesExactlyCents(PaymentAmount(Some(l)));
    if l.paymentsPerPeriod != 0.0 {
      Round2FixesExactlyCents(InterestAmountPaid(Some(l)));
    }
    if LifeOfLoanAmounts(Some(l)).Paid? {
      Round2FixesExactlyCents(LifeOfLoanAmounts(Some(l)).result.totalInterest);
    }
  }
}

=== FILE: payoff.dfy ===
/** Properties of the life-of-loan simulation, stated against a reference
    trace.

    `Trace(l, p, k)` is the state after the payment loop's body has run `k`
    times with payment `p`, whatever the loop guard says. The lemmas relate
    the simulation to this trace. A result is `Paid` exactly at the first
    pass whose balance is no more than the payment, and the count is that
    pass number plus one. A `Stalled` result means the balance never drops to
    the payment, so the result is `Paid` exactly when some pass reaches the
    payment. Extra principal never lengthens the loan.
 */
module PayoffProperties {
  import opened Rounding
  import opened Loans
  import opened LoanController

  /** The state after `k` more passes of the loop body from state `s`, with
      payment `p`, whatever the loop guard says. */
  function Iterate(l: Loan, p: real, s: SimState, k: nat): (r: SimState)
    requires s.newLoanValues.paymentsPerPeriod == l.paymentsPerPeriod != 0.0
    ensures r.totalNumberOfPayments == s.totalNumberOfPayments + k
    ensures r.newLoanValues.paymentsPerPeriod == l.paymentsPerPeriod
    ensures 1 <= k ==> IsCents(r.currentPrincipal)
    decreases k
  {
    if k == 0 then s else Iterate(l, p, Pass(l, p, s), k - 1)
  }

  /** Running `k + 1` passes is running `k` passes and then one more. */
  lemma {:induction false} IterateLast(l: Loan, p: real, s: SimState, k: nat)
    requires s.newLoanValues.paymentsPerPeriod == l.paymentsPerPeriod != 0.0
    ensures Iterate(l, p, s, k + 1) == Pass(l, p, Iterate(l, p, s, k))
    decreases k
  {
    if k > 0 {
      IterateLast(l, p, Pass(l, p, s), k - 1);
    }
  }

  /** The state after `k` passes of the loop body from the start, with
      payment `p`. The pass count is `k`, and from the first pass on the
      balance is whole cents. */
  function Trace(l: Loan, p: real, k: nat): (s: SimState)
    requires l.paymentsPerPeriod != 0.0
    ensures s.totalNumberOfPayments == k
    ensures s.newLoanValues.paymentsPerPeriod == l.paymentsPerPeriod
    ensures 1 <= k ==> IsCents(s.currentPrincipal)
  {
    Iterate(l, p, Start(l), k)
  }

  /** Pass `k + 1` of the trace is one pass of the loop body after pass
      `k`. */
  lemma TraceSucc(l: Loan, p: real, k: nat)
    requires l.paymentsPerPeriod != 0.0
    ensures Trace(l, p, k + 1) == Pass(l, p, Trace(l, p, k))
  {
    IterateLast(l, p, Start(l), k);
  }

  /** The down payment the first loop leaves behind never changes again.
      From the first pass on, interest is charged on a snapshot of the loan
      whose principal is the current balance. */
  lemma {:induction false} TraceSnapshot(l: Loan, p: real, k: nat)
    requires l.paymentsPerPeriod != 0.0
    ensures Trace(l, p, k).downPayment == Start(l).downPayment
    ensures 1 <= k ==> Trace(l, p, k).newLoanValues
                       == Snapshot(l, Trace(l, p, k).currentPrincipal, Trace(l, p, k).downPayment)
    decreases k
  {
    if k > 0 {
      TraceSnapshot(l, p, k - 1);
      TraceSucc(l, p, k - 1);
    }
  }

  /** The balance after pass `k + 1`, for `k >= 1`, as a function of the
      balance after pass `k`, the per-period rate `c`, the payment `p` and the
      additional principal `a`. */
  function NextBalance(b: real, c: real, p: real, a: real): real
  {
    Round2(b - (p - Round2(PeriodicInterest(b, c)) + a))
  }

  /** A larger balance, or a smaller additional principal, never gives a
      smaller next balance, as long as the per-period rate is not negative. */
  lemma NextBalanceMonotone(b1: real, b2: real, c: real, p: real, a1: real, a2: real)
    requires b1 <= b2 && 0.0 <= c && a2 <= a1
    ensures NextBalance(b1, c, p, a1) <= NextBalance(b2, c, p, a2)
  {
    PeriodicInterestMonotone(b1, b2, c);
    Round2Monotone(PeriodicInterest(b1, c), PeriodicInterest(b2, c));
    Round2Monotone(b1 - (p - Round2(PeriodicInterest(b1, c)) + a1),
                   b2 - (p - Round2(PeriodicInterest(b2, c)) + a2));
  }

  /** The loan's per-period rate is not negative when its annual rate is not
      negative and it has a positive number of payments per year. */
  lemma PeriodRateNonNegative(l: Loan)
    requires 0.0 < l.paymentsPerPeriod && 0.0 <= l.rate
    ensures 0.0 <= l.rate / l.paymentsPerPeriod
  {
  }

  /** Interest on a snapshot is its balance times the loan's per-period rate,
      rounded to cents. */
  lemma InterestOnSnapshot(l: Loan, b: real, dp: real)
    requires l.paymentsPerPeriod != 0.0
    ensures InterestAmountPaid(Some(Snapshot(l, b, dp)))
         == Round2(PeriodicInterest(b, l.rate / l.paymentsPerPeriod))
  {
    var sl := Snapshot(l, b, dp);
    assert sl.principal == b && sl.rate == l.rate && sl.paymentsPerPeriod == l.paymentsPerPeriod;
  }

  /** From the first pass on, each pass is `NextBalance` at the loan's
      per-period rate `rate / paymentsPerPeriod`. */
  lemma TraceStep(l: Loan, p: real, k: nat)
    requires l.paymentsPerPeriod != 0.0 && 1 <= k
    ensures Trace(l, p, k + 1).currentPrincipal
         == NextBalance(Trace(l, p, k).currentPrincipal, l.rate / l.paymentsPerPeriod,
                        p, l.additionalPrincipal)
  {
    var s := Trace(l, p, k);
    TraceSucc(l, p, k);
    TraceSnapshot(l, p, k);
    InterestOnSnapshot(l, s.currentPrincipal, s.downPayment);
  }

  /** The down payment comes off once. The starting balance is the rounded
      principal less a positive down payment. Every later pass leaves the
      down payment at zero and never takes it off again. The first pass
      charges interest on the loan as given: its full, unrounded principal,
      with the down payment still in it. */
  lemma DownPaymentAppliedOnce(l: Loan, p: real, k: nat)
    requires l.paymentsPerPeriod != 0.0
    ensures 0.0 < l.downPayment ==>
              Trace(l, p, 0).currentPrincipal == Round2(l.principal) - l.downPayment
              && Trace(l, p, k).downPayment == 0.0
    ensures l.downPayment <= 0.0 ==> Trace(l, p, 0).currentPrincipal == Round2(l.principal)
    ensures Trace(l, p, 1).cumulativeInterestPaid == InterestAmountPaid(Some(l))
    ensures Trace(l, p, k + 1).currentPrincipal
         == Round2(Trace(l, p, k).currentPrincipal
                   - (p - InterestAmountPaid(Some(Trace(l, p, k).newLoanValues))
                      + l.additionalPrincipal))
  {
    TraceSnapshot(l, p, k);
    TraceSucc(l, p, k);
  }

  /** One pass of the loop while the balance is above the payment. A pass
      after the first that does not lower the balance ends the loop
      `Stalled`. Otherwise the loop from pass `k` is the loop from pass
      `k + 1`, and from the first pass on the balance is a cent or more
      nearer the payment. */
  lemma LoopStep(l: Loan, p: real, k: nat)
    requires l.paymentsPerPeriod != 0.0 && IsCents(p)
    requires p < Trace(l, p, k).currentPrincipal
    ensures if 1 <= k && Trace(l, p, k).currentPrincipal <= Trace(l, p, k + 1).currentPrincipal
            then PayoffLoop(l, p, Trace(l, p, k)) == Stalled(k + 1)
            else PayoffLoop(l, p, Trace(l, p, k)) == PayoffLoop(l, p, Trace(l, p, k + 1))
    ensures 1 <= k && Trace(l, p, k + 1).currentPrincipal < Trace(l, p, k).currentPrincipal ==>
              CentsAbove(Trace(l, p, k + 1).currentPrincipal, p)
              < CentsAbove(Trace(l, p, k).currentPrincipal, p)
  {
    var s := Trace(l, p, k);
    var s' := Trace(l, p, k + 1);
    TraceSucc(l, p, k);
    if 1 <= k && s'.currentPrincipal < s.currentPrincipal {
      CentsAboveDecreases(s.currentPrincipal, s'.currentPrincipal, p);
    }
  }

  /** Once the balance is no more than the payment, the loop ends with the
      final period. */
  lemma LoopExits(l: Loan, p: real, k: nat)
    requires l.paymentsPerPeriod != 0.0 && IsCents(p)
    requires Trace(l, p, k).currentPrincipal <= p
    ensures PayoffLoop(l, p, Trace(l, p, k)) == Paid(FinalPeriod(p, Trace(l, p, k)))
  {
  }

  /** The loop, started at pass `k` of the trace, ends `Paid` only at the
      first pass `n` from `k` on whose balance is no more than the payment,
      and its result is that pass's final period. */
  lemma {:induction false} PaidFromTrace(l: Loan, p: real, k: nat) returns (n: nat)
    requires l.paymentsPerPeriod != 0.0 && IsCents(p)
    requires PayoffLoop(l, p, Trace(l, p, k)).Paid?
    ensures k <= n && Trace(l, p, n).currentPrincipal <= p
    ensures forall j :: k <= j < n ==> p < Trace(l, p, j).currentPrincipal
    ensures PayoffLoop(l, p, Trace(l, p, k)) == Paid(FinalPeriod(p, Trace(l, p, n)))
    decreases if k == 0 then 1 else 0, CentsAbove(Trace(l, p, k).currentPrincipal, p)
  {
    if p < Trace(l, p, k).currentPrincipal {
      LoopStep(l, p, k);
      n := PaidFromTrace(l, p, k + 1);
    } else {
      LoopExits(l, p, k);
      n := k;
    }
  }

  /** The simulation is the payment loop from pass zero of the trace, at the
      loan's payment. */
  lemma LifeOfLoanIsLoop(l: Loan)
    requires PaymentDefined(l)
    ensures PaymentDefined(l) && l.paymentsPerPeriod != 0.0
    ensures LifeOfLoanAmounts(Some(l))
         == PayoffLoop(l, PaymentAmount(Some(l)), Trace(l, PaymentAmount(Some(l)), 0))
  {
  }

  /** A `Paid` result is the source's exit. With `n` the number of payments
      less one, the balance after pass `n` is no more than the payment, and
      every earlier balance was above it. So the count is the number of loop
      passes plus one. The total interest is the running interest plus the
      payment less the residual balance, rounded to cents. */
  lemma PaidExitsAtFirstLowBalance(l: Loan)
    requires PaymentDefined(l) && LifeOfLoanAmounts(Some(l)).Paid?
    ensures var r := LifeOfLoanAmounts(Some(l)).result;
            var p := PaymentAmount(Some(l));
            && 1 <= r.numberPayments
            && Trace(l, p, r.numberPayments - 1).currentPrincipal <= p
            && (forall j :: 0 <= j < r.numberPayments - 1 ==> p < Trace(l, p, j).currentPrincipal)
            && r.totalInterest
               == Round2(Trace(l, p, r.numberPayments - 1).cumulativeInterestPaid + p
                         - Trace(l, p, r.numberPayments - 1).currentPrincipal)
  {
    var p := PaymentAmount(Some(l));
    LifeOfLoanIsLoop(l);
    var n := PaidFromTrace(l, p, 0);
  }

  /** Once a pass after the first fails to lower the balance, no later pass
      lowers it either: interest on a larger balance is never smaller. */
  lemma {:induction false} StallPersists(l: Loan, p: real, m: nat, d: nat)
    requires 0.0 < l.paymentsPerPeriod && 0.0 <= l.rate && 1 <= m
    requires Trace(l, p, m).currentPrincipal <= Trace(l, p, m + 1).currentPrincipal
    ensures Trace(l, p, m).currentPrincipal <= Trace(l, p, m + d).currentPrincipal
    ensures Trace(l, p, m + d).currentPrincipal <= Trace(l, p, m + d + 1).currentPrincipal
    decreases d
  {
    if d > 0 {
      StallPersists(l, p, m, d - 1);
      var b0 := Trace(l, p, m + d - 1).currentPrincipal;
      var b1 := Trace(l, p, m + d).currentPrincipal;
      var b2 := Trace(l, p, m + d + 1).currentPrincipal;
      var c := l.rate / l.paymentsPerPeriod;
      PeriodRateNonNegative(l);
      TraceStep(l, p, m + d - 1);
      TraceStep(l, p, m + d);
      assert b1 == NextBalance(b0, c, p, l.additionalPrincipal);
      assert b2 == NextBalance(b1, c, p, l.additionalPrincipal);
      NextBalanceMonotone(b0, b1, c, p, l.additionalPrincipal, l.additionalPrincipal);
    }
  }

  /** From pass `k` on, a `Stalled` loop never reaches a balance at or below
      the payment. */
  lemma {:induction false} StalledFromTrace(l: Loan, p: real, k: nat)
    requires 0.0 < l.paymentsPerPeriod && 0.0 <= l.rate && IsCents(p)
    requires PayoffLoop(l, p, Trace(l, p, k)).Stalled?
    requires forall j :: 0 <= j < k ==> p < Trace(l, p, j).currentPrincipal
    ensures forall j: nat :: p < Trace(l, p, j).currentPrincipal
    decreases if k == 0 then 1 else 0, CentsAbove(Trace(l, p, k).currentPrincipal, p)
  {
    var s := Trace(l, p, k);
    if s.currentPrincipal <= p {
      LoopExits(l, p, k);
    } else {
      LoopStep(l, p, k);
      if 1 <= k && s.currentPrincipal <= Trace(l, p, k + 1).currentPrincipal {
        forall j: nat | k <= j
          ensures p < Trace(l, p, j).currentPrincipal
        {
          StallPersists(l, p, k, j - k);
        }
      } else {
        StalledFromTrace(l, p, k + 1);
      }
    }
  }

  /** A `Stalled` result means the source never exits its payment loop:
      every balance it reaches stays above the payment. */
  lemma StalledNeverExits(l: Loan)
    requires PaymentDefined(l) && 0.0 < l.paymentsPerPeriod
    requires LifeOfLoanAmounts(Some(l)).Stalled?
    ensures forall k: nat :: PaymentAmount(Some(l)) < Trace(l, PaymentAmount(Some(l)), k).currentPrincipal
  {
    var p := PaymentAmount(Some(l));
    LifeOfLoanIsLoop(l);
    StalledFromTrace(l, p, 0);
  }

  /** The simulation pays the loan off exactly when some pass of the trace
      brings the balance down to the payment or below. */
  lemma PaidIffReachesPayment(l: Loan)
    requires PaymentDefined(l) && 0.0 < l.paymentsPerPeriod
    ensures var p := PaymentAmount(Some(l));
            LifeOfLoanAmounts(Some(l)).Paid?
            <==> exists k: nat :: Trace(l, p, k).currentPrincipal <= p
  {
    var p := PaymentAmount(Some(l));
    if LifeOfLoanAmounts(Some(l)).Paid? {
      PaidExitsAtFirstLowBalance(l);
      var n := LifeOfLoanAmounts(Some(l)).result.numberPayments - 1;
      assert Trace(l, p, n).currentPrincipal <= p;
    } else {
      StalledNeverExits(l);
    }
  }

  /** With more additional principal, every balance along the trace is no
      larger. */
  lemma {:induction false} ExtraPrincipalLowersTrace(l: Loan, p: real, extra: real, k: nat)
    requires 0.0 < l.paymentsPerPeriod && 0.0 <= l.rate && 0.0 <= extra
    ensures var l' := l.(additionalPrincipal := l.additionalPrincipal + extra);
            Trace(l', p, k).currentPrincipal <= Trace(l, p, k).currentPrincipal
    decreases k
  {
    var l' := l.(additionalPrincipal := l.additionalPrincipal + extra);
    if k == 1 {
      var b := Trace(l, p, 0).currentPrincipal;
      assert Trace(l', p, 0).currentPrincipal == b;
      var i := InterestAmountPaid(Some(l));
      assert InterestAmountPaid(Some(l')) == i;
      TraceSucc(l, p, 0);
      TraceSucc(l', p, 0);
      Round2Monotone(b - (p - i + l'.additionalPrincipal), b - (p - i + l.additionalPrincipal));
    } else if k > 1 {
      ExtraPrincipalLowersTrace(l, p, extra, k - 1);
      PeriodRateNonNegative(l);
      TraceStep(l, p, k - 1);
      TraceStep(l', p, k - 1);
      NextBalanceMonotone(Trace(l', p, k - 1).currentPrincipal, Trace(l, p, k - 1).currentPrincipal,
                          l.rate / l.paymentsPerPeriod, p,
                          l'.additionalPrincipal, l.additionalPrincipal);
    }
  }

  /** Paying more additional principal each period never adds payments. If
      the loan is paid off, it is still paid off with the extra, in at most
      as many payments. */
  lemma ExtraPrincipalNeverLengthensLoan(l: Loan, extra: real)
    requires PaymentDefined(l) && 0.0 < l.paymentsPerPeriod && 0.0 <= extra
    requires LifeOfLoanAmounts(Some(l)).Paid?
    ensures var l' := l.(additionalPrincipal := l.additionalPrincipal + extra);
            && PaymentDefined(l')
            && LifeOfLoanAmounts(Some(l')).Paid?
            && LifeOfLoanAmounts(Some(l')).result.numberPayments
               <= LifeOfLoanAmounts(Some(l)).result.numberPayments
  {
    var l' := l.(additionalPrincipal := l.additionalPrincipal + extra);
    PaymentIgnoresAdditionalPrincipal(l, l.additionalPrincipal + extra);
    var p := PaymentAmount(Some(l));
    PaidExitsAtFirstLowBalance(l);
    var n := LifeOfLoanAmounts(Some(l)).result.numberPayments - 1;
    ExtraPrincipalLowersTrace(l, p, extra, n);
    if LifeOfLoanAmounts(Some(l')).Stalled? {
      StalledNeverExits(l');
    } else {
      PaidExitsAtFirstLowBalance(l');
    }
  }
}

=== FILE: rounding.dfy ===
/** Rounding of money amounts to whole cents.

    The engine rounds every figure it produces with `(x * 100).rounded() / 100`.
    The default rounding rule of `rounded()` is "to nearest, ties away from
    zero", which `RoundHalfAway` states exactly; `Round2` is the cent rounding
    built from it.
 */
module Rounding {

  /** True when `x` is a whole number of cents. */
  predicate IsCents(x: real) {
    (x * 100.0).Floor as real == x * 100.0
  }

  /** The integer nearest to `y`; a tie (fraction exactly one half) goes away
      from zero. The two half-open intervals each hold exactly one integer,
      so the ensures pin the result down (see `RoundHalfAwayUnique`). */
  function RoundHalfAway(y: real): (k: int)
    ensures 0.0 <= y ==> y - 0.5 < k as real <= y + 0.5
    ensures y < 0.0 ==> y - 0.5 <= k as real < y + 0.5
  {
    if 0.0 <= y then (y + 0.5).Floor else -((0.5 - y).Floor)
  }

  /** Any integer meeting the rounding bounds is the rounded value. */
  lemma RoundHalfAwayUnique(y: real, k: int)
    requires 0.0 <= y ==> y - 0.5 < k as real <= y + 0.5
    requires y < 0.0 ==> y - 0.5 <= k as real < y + 0.5
    ensures RoundHalfAway(y) == k
  {
    var j := RoundHalfAway(y);
    assert -1.0 < j as real - k as real < 1.0;
  }

  /** Rounding to the nearest integer never reverses an order. */
  lemma RoundHalfAwayMonotone(y1: real, y2: real)
    requires y1 <= y2
    ensures RoundHalfAway(y1) <= RoundHalfAway(y2)
  {
  }

  /** Round to cents, ties away from zero: the cent amount nearest to `x`. */
  function Round2(x: real): (r: real)
    ensures IsCents(r)
    ensures x - 0.005 <= r <= x + 0.005
    ensures 0.0 <= x ==> 0.0 <= r
    ensures x <= 0.0 ==> r <= 0.0
  {
    var k := RoundHalfAway(x * 100.0);
    assert (k as real).Floor == k;
    k as real / 100.0
  }

  /** Cent rounding gives `k` hundredths exactly when `k` is the integer
      nearest to `100 * x`, ties away from zero. */
  lemma Round2ToCents(x: real, k: int)
    requires 0.0 <= x ==> x * 100.0 - 0.5 < k as real <= x * 100.0 + 0.5
    requires x < 0.0 ==> x * 100.0 - 0.5 <= k as real < x * 100.0 + 0.5
    ensures Round2(x) == k as real / 100.0
  {
    RoundHalfAwayUnique(x * 100.0, k);
  }

  /** A value is left unchanged by cent rounding exactly when it already is a
      whole number of cents. */
  lemma Round2FixesExactlyCents(x: real)
    ensures Round2(x) == x <==> IsCents(x)
  {
    if IsCents(x) {
      var m := (x * 100.0).Floor;
      RoundHalfAwayUnique(x * 100.0, m);
    }
  }

  /** Rounding to cents a second time changes nothing. */
  lemma Round2Idempotent(x: real)
    ensures Round2(Round2(x)) == Round2(x)
  {
    Round2FixesExactlyCents(Round2(x));
  }

  /** Cent rounding never reverses an order. */
  lemma Round2Monotone(x1: real, x2: real)
    requires x1 <= x2
    ensures Round2(x1) <= Round2(x2)
  {
    RoundHalfAwayMonotone(x1 * 100.0, x2 * 100.0);
  }

  /** Sums and differences of cent amounts are cent amounts. */
  lemma CentsClosed(x: real, y: real)
    requires IsCents(x) && IsCents(y)
    ensures IsCents(x + y) && IsCents(x - y)
  {
    var a, b := (x * 100.0).Floor, (y * 100.0).Floor;
    WholeCents(x + y, a + b);
    WholeCents(x - y, a - b);
  }

  /** An amount that is a whole number `n` of hundredths is cents. */
  lemma WholeCents(x: real, n: int)
    requires x * 100.0 == n as real
    ensures IsCents(x)
  {
    assert (n as real).Floor == n;
  }
}
